=== FILE: README.md ===
# Leaf-track time mapping and track construction (pyramid_animation)

This project models the core of the `pyramid_animation` crate in Dafny: the
leaf tracks (`Animation` over `f32`, `CurveTrack` over `Animatable`) that turn
an elapsed time into zero or one `(property, value)` pair, the translators
that build them from configuration blocks, and the `Track` dispatch that
builds any kind of track from a tagged block.

- `pon.dfy` (`PonModel`): a minimal configuration value (`Pon`), property
  references, translation errors and a `Result` type, plus the few reading
  primitives the constructors use (`field`, `field_as`, `field_as_or`,
  `as_reference`, strings, floats, arrays, typed blocks).
- `time_mapping.dfy` (`TimeMapping`): `Loop`, `CurveTime`, the timing
  configuration and the time mapper. It subtracts the offset, stops or wraps
  with the truncating 64-bit `%` when local time is strictly past the
  duration, then scales to a curve parameter. Times are whole milliseconds and
  the parameter is a real.
- `leaf_track.dfy` (`LeafTracks`): one generic leaf track `Leaf<V>` shared by
  both value types, with `new_fixed_value` and evaluation. The curve is kept
  as data (`FixedValue` or `LinearKeyFrame` keys) and is sampled through a
  caller-supplied, uninterpreted function.
- `leaf_config.dfy` (`LeafConfig`): the generic translators. They read loop
  and curve-time modes, keys in object, array and float-array form, the key
  list, `key_framed` with its defaults, and `fixed_value`.
- `animation.dfy` (`Animations`) and `curve_track.dfy` (`CurveTracks`): the
  two instantiations, with the different float-array key forms and the
  crate's `test_animation` and `test_animation_from_pon` tests restated as
  lemmas.
- `track.dfy` (`Tracks`): the closed set of track kinds, their evaluation,
  delegation of `TrackSetFromResource`, and construction dispatched on the
  type tag. Track sets and weighted tracks are type parameters whose
  construction and evaluation are supplied by the caller.

Behaviour of the code that the model makes explicit:

- A looping track is not periodic at exact multiples of its duration. The
  duration check is strict, so local time `d` reaches the curve unwrapped as
  `d`, while `2d` wraps to `0` (`TimeMapping.ForeverBoundary`). Periodicity
  holds for every positive local time that is not a multiple of `d`
  (`TimeMapping.ForeverPeriodic`).
- A zero or negative duration is not rejected at construction. `key_framed`
  accepts any duration. A zero duration divides by zero when wrapping, or
  when scaling relative time, at evaluation.
- An empty key list, a short compact key array, and an identifier missing
  from the resource registry abort (index out of bounds or `unwrap`). They
  are not reported as errors, so the model states them as preconditions.
- Keys are kept in the order given. They are not sorted or checked for
  duplicate times.

## Model

| member | source | states |
|---|---|---|
| TimeMapping.TruncRem | src/curve_track.rs:53 | The remainder of `%` takes the dividend's sign, is smaller than the divisor in magnitude, and differs from the dividend by a multiple of the divisor, which pins it to the truncating remainder. For a non-negative dividend and a positive divisor it equals the Euclidean remainder. |
| TimeMapping.TruncateToInt | src/curve_track.rs:136 | `as i64` truncates toward zero: the result lies within one of the float, on the side of zero. |
| TimeMapping.Wrapped | src/curve_track.rs:50-59 | The result is empty exactly when a play-once track is strictly past its duration. Local time up to and including the duration is used unchanged, negative time included. Past the duration, a looping track with positive duration uses `local % d`, which lies in `[0, d)`. |
| TimeMapping.Parameter | src/curve_track.rs:60-63 | An absolute parameter times 1000 gives the milliseconds. A relative parameter times the duration gives the milliseconds, and it lies in `[0, 1]` when `0 <= ms <= d`. |
| TimeMapping.MapTime | src/curve_track.rs:50-63 | The mapper gives no parameter exactly when a play-once track has finished. A looping track always gives one. |
| TimeMapping.ModShift | src/curve_track.rs:53 | Adding whole periods to the dividend leaves its Euclidean remainder unchanged. The Rust `%` agrees with it only while both dividends are non-negative, which is the only range in which `ForeverPeriodic` applies it. |
| TimeMapping.ForeverPeriodic | src/curve_track.rs:50-63 | For a looping track, a positive local time that is not a multiple of the duration maps to the same parameter after any number of further periods. |
| TimeMapping.ForeverBoundary | src/curve_track.rs:51-59 | Looping is not periodic at the boundary. Local time `d` maps to `d` (relative parameter 1), while `2d` maps to `0` (relative parameter 0). |
| TimeMapping.ForeverStaysInRange | src/curve_track.rs:50-63 | Once started, a looping track with positive duration samples within `[0, d]`. A relative one samples within `[0, 1]`. |
| TimeMapping.NegativeNotClamped | src/curve_track.rs:50-61 | Local time before the start reaches the curve unchanged, as a negative parameter. |
| LeafTracks.NewFixedValue | src/curve_track.rs:36-45 | A fixed-value track has the fixed-value curve, the given property, offset 0, `Forever`, one week and `Absolute`. |
| LeafTracks.ValueAt | src/curve_track.rs:48-65 | Evaluation gives at most one pair, always for the track's property. It gives none exactly when a play-once track is strictly past its duration. |
| LeafTracks.WithinDurationUnwrapped | src/curve_track.rs:50-64 | When local time is at most the duration (equal or negative included), the output is exactly one pair: the property and the curve sampled at the unwrapped local time. |
| LeafTracks.ForeverAlwaysEmits | src/curve_track.rs:50-64 | A looping track with non-zero duration emits exactly one pair for its property at every time. |
| LeafTracks.ForeverWraps | src/curve_track.rs:51-53 | Past the duration, a looping track samples the curve at `local % d`, which lies in `[0, d)`. |
| LeafTracks.ForeverRepeats | src/curve_track.rs:50-64 | A looping track's output repeats every period, except at multiples of the duration. |
| LeafTracks.FixedValueAlwaysEmits | src/curve_track.rs:36-45 | A fixed-value track emits exactly one pair at every time. If its curve ignores the parameter, that pair is `(property, value)`. |
| LeafConfig.LoopFromPon | src/curve_track.rs:69-77 | The strings "forever" and "once", and only those, give a loop mode, and the string is that mode's spelling. Any other string is `InvalidValue`. A non-string is a type mismatch. |
| LeafConfig.CurveTimeFromPon | src/curve_track.rs:78-86 | The strings "absolute" and "relative", and only those, give a curve-time mode, and the string is that mode's spelling. Any other string is `InvalidValue`. A non-string is a type mismatch. |
| LeafConfig.ModeNamesRoundTrip | src/curve_track.rs:69-86 | Every loop and curve-time mode reads back from its own spelling. |
| LeafConfig.KeyFromPon | src/curve_track.rs:88-107 | Only objects, arrays and float arrays give keys; anything else is `MismatchType`. An object key reads if and only if its `time` field reads as a float and its `value` field as a value, and the key is those readings; otherwise the first failing field's error is returned. An array key reads if and only if `arr[0]` is a float and `arr[1]` reads, and is those readings; otherwise the first error. A float array gives `Key(arr[0], single(arr[1]))`. |
| LeafConfig.KeyFormsRoundTrip | src/curve_track.rs:90-99 | A `{time, value}` object, possibly with extra fields, and a `[time, value]` array both read back the time and value they were written with. |
| LeafConfig.KeysFromPon | src/curve_track.rs:123 | A key list translates to as many keys, each the translation of the configuration key at the same position, with no reordering. On failure the error is that of the first key that does not read, and every earlier key reads. |
| LeafConfig.KeyFramedHeader | src/curve_track.rs:113-118 | The header reads if and only if the block is an object with a reference `property`, an array `keys`, and each present optional field readable. Each of `duration`, `loop` and `curve_time` independently takes its default (1.0 s, `Once`, `Absolute`) when absent and its own translation when present. The first failing read gives the error, in the order `property`, `duration`, `loop`, `curve_time`, `keys`: a non-object or non-reference is a type mismatch, a missing `property` or `keys` is `NoSuchField`, a non-number `duration` is a `Float` mismatch, a bad `loop` or `curve_time` gives that reader's error, and a non-array `keys` is an `Array` mismatch. |
| LeafConfig.KeyFramed | src/curve_track.rs:113-139 | Header errors propagate. A first key that does not read gives `Generic(first key)`. When the header and the first key read, the block builds if and only if the whole key list reads, and otherwise fails with the key list's error. On success the curve is a keyframe curve over the keys in the given order, the offset is 0, and the duration is the configured seconds in milliseconds, with the loop, curve time and property as read. |
| LeafConfig.KeyFramedDefaults | src/curve_track.rs:114-137 | A block with only `property` and `keys` gets the defaults: 1000 ms, `Once`, `Absolute`, offset 0. |
| LeafConfig.ConfiguredHeader | src/curve_track.rs:114-118 | The header of a block that sets `property`, `keys`, `duration`, `loop` and `curve_time` holds exactly those values, with no default applied. |
| LeafConfig.KeyFramedConfigured | src/curve_track.rs:113-137 | A block that sets `duration`, `loop` and `curve_time` builds the keyframe track with exactly that duration in milliseconds, loop mode and curve time. |
| LeafConfig.LeafFromPon | src/curve_track.rs:109-148 | A non-typed value is a type mismatch. A tag other than `key_framed` or `fixed_value` gives `UnrecognizedType(tag)`. `key_framed` builds a keyframe track. `fixed_value` builds if and only if its `property` reads as a reference and its `value` reads, giving the fixed-value track of those. Otherwise it fails with the `property` error if that read fails, and with the `value` error if not. |
| LeafConfig.FixedValueRoundTrip | src/curve_track.rs:140-144 | A `fixed_value` block with a property reference and a readable value builds exactly `new_fixed_value(property, value)`, whatever other fields it has. |
| LeafConfig.UnitTestConfigBuilds | src/curve_track.rs:168-182 | The tests' `key_framed` block, with its first key as an object, an array or a float array, builds the two-key looping track with the one-second default for any value reader that reads the keys' numbers. |
| Animations.NewFixedValue | src/animation.rs:33-44 | A fixed-value animation has offset 0, `Forever`, one week and `Absolute`, with the given property and value. |
| Animations.Update | src/animation.rs:46-64 | At most one pair. None exactly when a play-once animation is past its duration. Past the duration a looping one samples at `local % d`. Otherwise it samples at the unwrapped local time. |
| Animations.KeyFromPon | src/animation.rs:86-105 | A float array gives `Key(arr[0], arr[1])` directly. An array `[number, x]` gives the key when `x` is a number and a mismatch otherwise. |
| Animations.AnimationFromPon | src/animation.rs:107-146 | Unknown tags give `UnrecognizedType(tag)`. A successful `fixed_value` block gives a week-long looping fixed-value curve holding its `value` field. |
| Animations.UnitTestSamples | src/animation.rs:150-164 | With 1 s, `Once`, `Absolute` and offset 0, times of 100 ms, 600 ms and 1000 ms sample the curve at 0.1, 0.6 and 1.0. At 1500 ms nothing is emitted. |
| Animations.RelativeHalfway | src/animation.rs:58-60 | A relative two-second animation samples at 0.5 after one second. |
| Animations.UnitTestFromPon | src/animation.rs:166-180 | The unit-test configuration, with its first key as an object, an array or a float array, builds the two-key looping animation with the one-second default. |
| CurveTracks.NewFixedValue | src/curve_track.rs:35-46 | A fixed-value curve track has offset 0, `Forever`, one week and `Absolute`, with the given property and value. |
| CurveTracks.ValueAt | src/curve_track.rs:48-65 | At most one pair. None exactly when a play-once track is past its duration. Past the duration a looping one samples at `local % d`. Otherwise it samples at the unwrapped local time. |
| CurveTracks.KeyFromPon | src/curve_track.rs:88-107 | A float array gives `Key(arr[0], Animatable([arr[1]]))`, a single-channel wrapping. An array `[number, x]` passes the reading of `x` through. |
| CurveTracks.CurveTrackFromPon | src/curve_track.rs:109-148 | Unknown tags give `UnrecognizedType(tag)`. A successful `fixed_value` block gives a week-long looping fixed-value curve whose value is the reading of its `value` field. |
| CurveTracks.UnitTestSamples | src/curve_track.rs:152-166 | 100 ms and 600 ms sample the curve at 0.1 and 0.6. At 1500 ms nothing is emitted. |
| CurveTracks.UnitTestFromPon | src/curve_track.rs:168-182 | Assuming a number reads as a one-channel value, the unit-test configuration, with its first key as an object, an array or a float array, builds the two-key looping track. A float-array first key needs no such reading. |
| Tracks.ResourceValueAt | src/track.rs:20-24 | A shared track set evaluated through its wrapper gives exactly the set's output at the same time. |
| Tracks.ValueAt | src/track.rs:11-24 | Evaluation dispatches on the track kind. A curve track evaluates exactly as `CurveTrack::value_at` (at most one pair, none exactly when it has finished). The other kinds give exactly what their set, blend or shared set gives. |
| Tracks.FromPon | src/track.rs:26-43 | A non-typed value is a mismatch. A tag outside the five known ones gives `UnrecognizedType(tag)`. Success implies a known tag. A curve track results exactly when a `key_framed`/`fixed_value` block translates as a curve track. |
| Tracks.CurveTagsBuildCurveTracks | src/track.rs:30-31 | `key_framed` and `fixed_value` both go to curve-track translation of the whole block, and its errors pass through. |
| Tracks.CompositeTagsDispatch | src/track.rs:32-33 | `track_set` goes to the track-set constructor and `weighted_tracks` to the weighted-tracks constructor, and their errors pass through. |
| Tracks.ResourceTrackDelegates | src/track.rs:34-37 | A `track_set_from_resource` block with a registered id builds a wrapper of that resource. It evaluates, at every time, exactly as the resource. |
| Tracks.ResourceIdMustBeString | src/track.rs:35 | A non-string resource identifier is a type mismatch. |

## Left out

- Curve evaluation (`FixedValueCurve`, `LinearKeyFrameCurve`) is not part of this model. Curves are sampled through an uninterpreted `sample` function, and no clamping or interpolation formula is assumed.
- `TrackSet` and `WeightedTracks` are not part of this model. They are type parameters, and their construction and evaluation are passed in.
- The configuration parser and its translation library are foreign. `Pon` has only the shapes the constructors inspect. Every numeric literal is `Number`, which is read as a float. Field lookup on a non-object is assumed to be a type mismatch.
- Reading an `Animatable` from configuration is not part of this model. It is a parameter (`AnimatableReader`).
- `f32` arithmetic: curve parameters are exact reals. The duration conversion `(duration*1000.0) as i64` is an exact product truncated toward zero, without float rounding or 64-bit saturation.
- `Duration` below one millisecond, and 64-bit overflow of `time - offset`: times are unbounded integers of milliseconds.
- Aborting paths become preconditions: `keys_array[0]` on an empty key list, `arr[0]`/`arr[1]` on short key arrays, `% 0` when a looping track with zero duration is past it, and the registry `unwrap` chain. For the registry, the model assumes the document is present, the id is registered, and the resource is a track set.
- A relative track with zero duration divides by zero in floating point (infinity or NaN). It is excluded by the precondition `ParameterDefined`.
- `Rc` sharing, ownership and `Debug`: errors carry the offending value itself instead of its debug text, and a shared resource is held by value.
- The translation context in `src/track.rs` is reduced to the registry of shared track sets and the constructors passed in.

=== FILE: animation.dfy ===
/** The float animation: a leaf track whose values are single floats
    (modelled as reals), with its constructor from configuration. */
module Animations {
  import opened PonModel
  import opened TimeMapping
  import opened LeafTracks
  import LeafConfig

  type Animation = Leaf<real>

  /** A float keyframe read from the compact float-array form is the pair of
      floats itself. */
  function FloatKeyValue(x: real): real {
    x
  }

  /** A track holding `value` on `property`, looping forever over one week. */
  function NewFixedValue(property: PropRef, value: real): (a: Animation)
    ensures a.curve == FixedValue(value) && a.property == property
    ensures a.timing == Timing(0, WeekMs, Forever, Absolute)
  {
    LeafTracks.NewFixedValue(property, value)
  }

  /** The animation's output at an elapsed time: nothing once a play-once
      animation has finished, otherwise its property and the curve's value. */
  function Update(a: Animation, timeMs: int, sample: (Curve<real>, real) -> real): (r: Emitted<real>)
    requires MapDefined(a.timing, timeMs)
    ensures |r| <= 1
    ensures r == [] <==> a.timing.loopType == Once && Local(a.timing, timeMs) > a.timing.durationMs
    ensures a.timing.loopType == Forever && 0 < a.timing.durationMs < Local(a.timing, timeMs) ==>
              r == [(a.property, sample(a.curve, Parameter(a.timing, Local(a.timing, timeMs) % a.timing.durationMs)))]
    ensures Local(a.timing, timeMs) <= a.timing.durationMs ==>
              r == [(a.property, sample(a.curve, Parameter(a.timing, Local(a.timing, timeMs))))]
  {
    ValueAt(a, timeMs, sample)
  }

  /** A float keyframe in any of its three forms; the float-array form
      `[time, value]` gives the key directly. */
  function KeyFromPon(p: Pon): (r: Result<Key<real>>)
    requires LeafConfig.KeyDefined(p)
    ensures p.FloatArray? ==> r == Ok(Key(p.floats[0], p.floats[1]))
    ensures p.Array? && p.items[0].Number? ==>
              r == (if p.items[1].Number? then Ok(Key(p.items[0].x, p.items[1].x))
                    else Err(MismatchType("Float", p.items[1])))
  {
    LeafConfig.KeyFromPon(p, FloatFromPon, FloatKeyValue)
  }

  predicate FromPonDefined(p: Pon) {
    LeafConfig.LeafFromPonDefined(p, FloatFromPon, FloatKeyValue)
  }

  /** An animation from a `key_framed` or `fixed_value` block. */
  function AnimationFromPon(p: Pon): (r: Result<Animation>)
    requires FromPonDefined(p)
    ensures !p.TypedPon? ==> r.Err?
    ensures p.TypedPon? && p.typeName != "key_framed" && p.typeName != "fixed_value" ==>
              r == Err(UnrecognizedType(p.typeName))
    ensures r.Ok? && p.typeName == "fixed_value" ==>
              && r.value.curve.FixedValue?
              && r.value.timing == Timing(0, WeekMs, Forever, Absolute)
              && p.data.Object? && "value" in p.data.fields
              && p.data.fields["value"] == Number(r.value.curve.value)
  {
    LeafConfig.LeafFromPon(p, FloatFromPon, FloatKeyValue)
  }

  /** The two-key animation over one second, played once, of the crate's
      `test_animation` test. */
  function UnitTestAnimation(): Animation {
    Leaf(LinearKeyFrame([Key(0.0, 0.0), Key(1.0, 1.0)]), Timing(0, 1000, Once, Absolute), PropRef("this", "x"))
  }

  /** At 100 ms and 600 ms the curve is sampled at 0.1 and 0.6 seconds; after
      the second has passed the animation emits nothing. */
  lemma UnitTestSamples(sample: (Curve<real>, real) -> real)
    ensures Update(UnitTestAnimation(), 100, sample) == [(PropRef("this", "x"), sample(UnitTestAnimation().curve, 0.1))]
    ensures Update(UnitTestAnimation(), 600, sample) == [(PropRef("this", "x"), sample(UnitTestAnimation().curve, 0.6))]
    ensures Update(UnitTestAnimation(), 1000, sample) == [(PropRef("this", "x"), sample(UnitTestAnimation().curve, 1.0))]
    ensures Update(UnitTestAnimation(), 1500, sample) == []
  {
    var t := UnitTestAnimation().timing;
    assert Parameter(t, 100) == 0.1;
    assert Parameter(t, 600) == 0.6;
    assert Parameter(t, 1000) == 1.0;
  }

  /** A relative two-second animation is sampled at 0.5 after one second. */
  lemma RelativeHalfway(curve: Curve<real>, property: PropRef, sample: (Curve<real>, real) -> real)
    ensures Update(Leaf(curve, Timing(0, 2000, Once, Relative), property), 1000, sample)
              == [(property, sample(curve, 0.5))]
  {
  }

  /** Every spelling of the configuration of the crate's
      `test_animation_from_pon` and `test_animation_from_pon_alternative_syntax`
      tests builds the two-key animation, looping, with the one-second default
      duration. */
  lemma UnitTestFromPon(firstForm: LeafConfig.KeyForm)
    ensures FromPonDefined(LeafConfig.UnitTestConfig(firstForm))
    ensures AnimationFromPon(LeafConfig.UnitTestConfig(firstForm))
              == Ok(UnitTestAnimation().(timing := Timing(0, 1000, Forever, Absolute)))
  {
    LeafConfig.UnitTestConfigBuilds(firstForm, FloatFromPon, FloatKeyValue, 0.0, 1.0);
  }
}

=== FILE: curve_track.dfy ===
/** The curve track: a leaf track whose values are `Animatable` channel
    vectors, with its constructor from configuration. */
module CurveTracks {
  import opened PonModel
  import opened TimeMapping
  import opened LeafTracks
  import LeafConfig

  /** A group of float channels interpolated as one value (a vector's
      components, say). */
  datatype Animatable = Animatable(value: seq<real>)

  type CurveTrack = Leaf<Animatable>

  /** How an `Animatable` is read from configuration is defined outside this
      model; constructors take it as a parameter. */
  type AnimatableReader = Pon -> Result<Animatable>

  /** A float-array key's value becomes a one-channel `Animatable`. */
  function SingleChannel(x: real): (a: Animatable)
    ensures |a.value| == 1 && a.value[0] == x
  {
    Animatable([x])
  }

  /** A track holding `value` on `property`, looping forever over one week. */
  function NewFixedValue(property: PropRef, value: Animatable): (c: CurveTrack)
    ensures c.curve == FixedValue(value) && c.property == property
    ensures c.timing == Timing(0, WeekMs, Forever, Absolute)
  {
    LeafTracks.NewFixedValue(property, value)
  }

  /** The track's output at an elapsed time: nothing once a play-once track
      has finished, otherwise its property and the curve's value. */
  function ValueAt(c: CurveTrack, timeMs: int, sample: (Curve<Animatable>, real) -> Animatable)
    : (r: Emitted<Animatable>)
    requires MapDefined(c.timing, timeMs)
    ensures |r| <= 1
    ensures r == [] <==> c.timing.loopType == Once && Local(c.timing, timeMs) > c.timing.durationMs
    ensures c.timing.loopType == Forever && 0 < c.timing.durationMs < Local(c.timing, timeMs) ==>
              r == [(c.property, sample(c.curve, Parameter(c.timing, Local(c.timing, timeMs) % c.timing.durationMs)))]
    ensures Local(c.timing, timeMs) <= c.timing.durationMs ==>
              r == [(c.property, sample(c.curve, Parameter(c.timing, Local(c.timing, timeMs))))]
  {
    LeafTracks.ValueAt(c, timeMs, sample)
  }

  /** An `Animatable` keyframe in any of its three forms; the float-array form
      `[time, x]` wraps `x` as a one-channel value. */
  function KeyFromPon(p: Pon, animatableOf: AnimatableReader): (r: Result<Key<Animatable>>)
    requires LeafConfig.KeyDefined(p)
    ensures p.FloatArray? ==> r == Ok(Key(p.floats[0], Animatable([p.floats[1]])))
    ensures p.Array? && p.items[0].Number? ==>
              r == (match animatableOf(p.items[1])
                    case Ok(v) => Ok(Key(p.items[0].x, v))
                    case Err(e) => Err(e))
  {
    LeafConfig.KeyFromPon(p, animatableOf, SingleChannel)
  }

  predicate FromPonDefined(p: Pon, animatableOf: AnimatableReader) {
    LeafConfig.LeafFromPonDefined(p, animatableOf, SingleChannel)
  }

  /** A curve track from a `key_framed` or `fixed_value` block. */
  function CurveTrackFromPon(p: Pon, animatableOf: AnimatableReader): (r: Result<CurveTrack>)
    requires FromPonDefined(p, animatableOf)
    ensures !p.TypedPon? ==> r.Err?
    ensures p.TypedPon? && p.typeName != "key_framed" && p.typeName != "fixed_value" ==>
              r == Err(UnrecognizedType(p.typeName))
    ensures r.Ok? && p.typeName == "fixed_value" ==>
              && r.value.curve.FixedValue?
              && r.value.timing == Timing(0, WeekMs, Forever, Absolute)
              && p.data.Object? && "value" in p.data.fields
              && animatableOf(p.data.fields["value"]) == Ok(r.value.curve.value)
  {
    LeafConfig.LeafFromPon(p, animatableOf, SingleChannel)
  }

  /** The two-key, one-channel track over one second, played once, of the
      crate's `test_animation` test. */
  function UnitTestTrack(): CurveTrack {
    Leaf(LinearKeyFrame([Key(0.0, Animatable([0.0])), Key(1.0, Animatable([1.0]))]),
         Timing(0, 1000, Once, Absolute), PropRef("this", "x"))
  }

  /** At 100 ms and 600 ms the curve is sampled at 0.1 and 0.6 seconds; after
      the second has passed the track emits nothing. */
  lemma UnitTestSamples(sample: (Curve<Animatable>, real) -> Animatable)
    ensures ValueAt(UnitTestTrack(), 100, sample) == [(PropRef("this", "x"), sample(UnitTestTrack().curve, 0.1))]
    ensures ValueAt(UnitTestTrack(), 600, sample) == [(PropRef("this", "x"), sample(UnitTestTrack().curve, 0.6))]
    ensures ValueAt(UnitTestTrack(), 1500, sample) == []
  {
    var t := UnitTestTrack().timing;
    assert Parameter(t, 100) == 0.1;
    assert Parameter(t, 600) == 0.6;
  }

  /** Every spelling of the configuration of the crate's
      `test_animation_from_pon` and `test_animation_from_pon_alternative_syntax`
      tests builds the two-key, one-channel track, looping, with the one-second
      default duration. A numeric value is assumed to read as a one-channel
      value, as `Animatable::new_float` builds it; a float-array first key
      needs no such reading. */
  lemma UnitTestFromPon(firstForm: LeafConfig.KeyForm, animatableOf: AnimatableReader)
    requires firstForm != LeafConfig.FloatArrayKey ==> animatableOf(Number(0.0)) == Ok(Animatable([0.0]))
    requires animatableOf(Number(1.0)) == Ok(Animatable([1.0]))
    ensures FromPonDefined(LeafConfig.UnitTestConfig(firstForm), animatableOf)
    ensures CurveTrackFromPon(LeafConfig.UnitTestConfig(firstForm), animatableOf)
              == Ok(UnitTestTrack().(timing := Timing(0, 1000, Forever, Absolute)))
  {
    LeafConfig.UnitTestConfigBuilds(firstForm, animatableOf, SingleChannel, Animatable([0.0]), Animatable([1.0]));
  }
}

=== FILE: leaf_config.dfy ===
/** Construction of leaf tracks from configuration blocks, shared by the
    float `Animation` and the `CurveTrack` constructors. The two differ only in
    how a value is read (`valueOf`) and in how the compact float-array key
    form turns its second float into a value (`single`). */
module LeafConfig {
  import opened PonModel
  import opened TimeMapping
  import opened LeafTracks

  /** The configuration spelling of a loop mode. */
  function LoopName(l: Loop): string {
    match l
    case Forever => "forever"
    case Once => "once"
  }

  /** The configuration spelling of a curve-time mode. */
  function CurveTimeName(c: CurveTime): string {
    match c
    case Absolute => "absolute"
    case Relative => "relative"
  }

  /** A loop mode: the strings "forever" and "once"; any other string is an
      invalid value and a non-string a type mismatch. */
  function LoopFromPon(p: Pon): (r: Result<Loop>)
    ensures r.Ok? <==> p.Str? && (p.s == "forever" || p.s == "once")
    ensures r.Ok? ==> p.s == LoopName(r.value)
    ensures p.Str? && !r.Ok? ==> r == Err(InvalidValue(p))
    ensures !p.Str? ==> r == Err(MismatchType("String", p))
  {
    var s :- StringFromPon(p);
    if s == "forever" then Ok(Forever)
    else if s == "once" then Ok(Once)
    else Err(InvalidValue(p))
  }

  /** A curve-time mode: the strings "absolute" and "relative"; any other
      string is an invalid value and a non-string a type mismatch. */
  function CurveTimeFromPon(p: Pon): (r: Result<CurveTime>)
    ensures r.Ok? <==> p.Str? && (p.s == "absolute" || p.s == "relative")
    ensures r.Ok? ==> p.s == CurveTimeName(r.value)
    ensures p.Str? && !r.Ok? ==> r == Err(InvalidValue(p))
    ensures !p.Str? ==> r == Err(MismatchType("String", p))
  {
    var s :- StringFromPon(p);
    if s == "absolute" then Ok(Absolute)
    else if s == "relative" then Ok(Relative)
    else Err(InvalidValue(p))
  }

  /** Every mode reads back from its own spelling. */
  lemma ModeNamesRoundTrip(l: Loop, c: CurveTime)
    ensures LoopFromPon(Str(LoopName(l))) == Ok(l)
    ensures CurveTimeFromPon(Str(CurveTimeName(c))) == Ok(c)
  {
  }

  /** Reading a key indexes the compact forms without a length check: an array
      needs its first element, and its second once the first is a float; a
      float array needs two floats. */
  predicate KeyDefined(p: Pon) {
    && (p.Array? ==> |p.items| >= 1 && (p.items[0].Number? ==> |p.items| >= 2))
    && (p.FloatArray? ==> |p.floats| >= 2)
  }

  /** One keyframe, from an object `{ time, value }`, an array `[time, value]`
      or a float array `[time, value]`; anything else is a type mismatch. */
  function KeyFromPon<V>(p: Pon, valueOf: Pon -> Result<V>, single: real -> V): (r: Result<Key<V>>)
    requires KeyDefined(p)
    ensures r.Ok? ==> p.Object? || p.Array? || p.FloatArray?
    ensures !(p.Object? || p.Array? || p.FloatArray?) ==> r == Err(MismatchType("Object or Array", p))
    ensures p.FloatArray? ==> r == Ok(Key(p.floats[0], single(p.floats[1])))
    ensures p.Object? ==>
              (r.Ok? <==> FieldAs(p, "time", FloatFromPon).Ok? && FieldAs(p, "value", valueOf).Ok?)
    ensures p.Object? && r.Ok? ==>
              FieldAs(p, "time", FloatFromPon) == Ok(r.value.time) && FieldAs(p, "value", valueOf) == Ok(r.value.value)
    ensures p.Object? && FieldAs(p, "time", FloatFromPon).Err? ==>
              r == Err(FieldAs(p, "time", FloatFromPon).error)
    ensures p.Object? && FieldAs(p, "time", FloatFromPon).Ok? && FieldAs(p, "value", valueOf).Err? ==>
              r == Err(FieldAs(p, "value", valueOf).error)
    ensures p.Array? ==> (r.Ok? <==> p.items[0].Number? && valueOf(p.items[1]).Ok?)
    ensures p.Array? && r.Ok? ==> r.value.time == p.items[0].x && valueOf(p.items[1]) == Ok(r.value.value)
    ensures p.Array? && !p.items[0].Number? ==> r == Err(MismatchType("Float", p.items[0]))
    ensures p.Array? && p.items[0].Number? && valueOf(p.items[1]).Err? ==> r == Err(valueOf(p.items[1]).error)
  {
    match p
    case Object(_) =>
      var time :- FieldAs(p, "time", FloatFromPon);
      var value :- FieldAs(p, "value", valueOf);
      Ok(Key(time, value))
    case Array(arr) =>
      var time :- FloatFromPon(arr[0]);
      var value :- valueOf(arr[1]);
      Ok(Key(time, value))
    case FloatArray(arr) => Ok(Key(arr[0], single(arr[1])))
    case _ => Err(MismatchType("Object or Array", p))
  }

  /** The object and array key forms read back the time and value they were
      written with; an object may carry further fields. */
  lemma KeyFormsRoundTrip<V>(time: real, enc: Pon, value: V, fields: map<string, Pon>,
                             valueOf: Pon -> Result<V>, single: real -> V)
    requires valueOf(enc) == Ok(value)
    ensures KeyFromPon(Object(fields["time" := Number(time)]["value" := enc]), valueOf, single)
              == Ok(Key(time, value))
    ensures KeyFromPon(Array([Number(time), enc]), valueOf, single) == Ok(Key(time, value))
  {
    var obj := Object(fields["time" := Number(time)]["value" := enc]);
    assert Field(obj, "time") == Ok(Number(time));
    assert Field(obj, "value") == Ok(enc);
  }

  /** Keys are translated in order and translation stops at the first key
      that fails, so only the keys up to that one must be readable. */
  predicate KeysDefined<V>(items: seq<Pon>, valueOf: Pon -> Result<V>, single: real -> V) {
    |items| > 0 ==>
      && KeyDefined(items[0])
      && (KeyFromPon(items[0], valueOf, single).Ok? ==> KeysDefined(items[1..], valueOf, single))
  }

  /** A list of keyframes: each key translated, in the order given, with no
      sorting; the first failing key's error otherwise. */
  function KeysFromPon<V>(items: seq<Pon>, valueOf: Pon -> Result<V>, single: real -> V)
    : (r: Result<seq<Key<V>>>)
    requires KeysDefined(items, valueOf, single)
    ensures r.Ok? ==> |r.value| == |items|
    ensures r.Ok? ==> forall i | 0 <= i < |items| ::
              KeyDefined(items[i]) && KeyFromPon(items[i], valueOf, single) == Ok(r.value[i])
    ensures r.Err? ==> exists i | 0 <= i < |items| ::
              && (forall j | 0 <= j < i :: KeyDefined(items[j]) && KeyFromPon(items[j], valueOf, single).Ok?)
              && KeyDefined(items[i]) && KeyFromPon(items[i], valueOf, single) == Err(r.error)
  {
    if |items| == 0 then Ok([])
    else
      var first :- KeyFromPon(items[0], valueOf, single);
      assert forall i | 1 <= i < |items| :: items[i] == items[1..][i - 1];
      match KeysFromPon(items[1..], valueOf, single)
      case Err(e) =>
        var i :| 0 <= i < |items[1..]| &&
                 (forall j | 0 <= j < i :: KeyDefined(items[1..][j]) && KeyFromPon(items[1..][j], valueOf, single).Ok?) &&
                 KeyDefined(items[1..][i]) && KeyFromPon(items[1..][i], valueOf, single) == Err(e);
        assert forall j | 0 <= j < i + 1 :: KeyDefined(items[j]) && KeyFromPon(items[j], valueOf, single).Ok? by {
          forall j | 0 <= j < i + 1
            ensures KeyDefined(items[j]) && KeyFromPon(items[j], valueOf, single).Ok?
          {
            if j > 0 {
              assert items[j] == items[1..][j - 1];
            }
          }
        }
        assert items[i + 1] == items[1..][i];
        Err(e)
      case Ok(rest) =>
        Ok([first] + rest)
  }

  /** The fields of a `key_framed` block read before its keys, with their
      defaults: duration 1 second, play once, absolute curve time. */
  datatype Header = Header(property: PropRef, durationSecs: real, loopType: Loop,
                           curveTime: CurveTime, keys: seq<Pon>)

  /** The header reads of a `key_framed` block, cumulative in the order they
      are made: `property`, then the optional `duration`, `loop` and
      `curve_time`, each of which reads when absent. */
  predicate PropertyReads(data: Pon) {
    data.Object? && "property" in data.fields && data.fields["property"].Reference?
  }

  predicate DurationReads(data: Pon) {
    PropertyReads(data) && ("duration" in data.fields ==> data.fields["duration"].Number?)
  }

  predicate LoopReads(data: Pon) {
    DurationReads(data) && ("loop" in data.fields ==> LoopFromPon(data.fields["loop"]).Ok?)
  }

  predicate CurveTimeReads(data: Pon) {
    LoopReads(data) && ("curve_time" in data.fields ==> CurveTimeFromPon(data.fields["curve_time"]).Ok?)
  }

  /** The header of a `key_framed` block. Each optional field takes its
      default when absent and its own translation when present, independently
      of the others; `property` and `keys` are required. The first read that
      fails gives the error. */
  function KeyFramedHeader(data: Pon): (r: Result<Header>)
    ensures r.Ok? <==> CurveTimeReads(data) && "keys" in data.fields && data.fields["keys"].Array?
    ensures r.Ok? ==>
              && data.fields["property"] == Reference(r.value.property)
              && data.fields["keys"] == Array(r.value.keys)
    ensures r.Ok? ==>
              && ("duration" !in data.fields ==> r.value.durationSecs == 1.0)
              && ("duration" in data.fields ==> data.fields["duration"] == Number(r.value.durationSecs))
    ensures r.Ok? ==>
              && ("loop" !in data.fields ==> r.value.loopType == Once)
              && ("loop" in data.fields ==> LoopFromPon(data.fields["loop"]) == Ok(r.value.loopType))
    ensures r.Ok? ==>
              && ("curve_time" !in data.fields ==> r.value.curveTime == Absolute)
              && ("curve_time" in data.fields ==> CurveTimeFromPon(data.fields["curve_time"]) == Ok(r.value.curveTime))
    ensures !data.Object? ==> r == Err(MismatchType("Object", data))
    ensures data.Object? && "property" !in data.fields ==> r == Err(NoSuchField("property"))
    ensures data.Object? && "property" in data.fields && !data.fields["property"].Reference? ==>
              r == Err(MismatchType("Reference", data.fields["property"]))
    ensures PropertyReads(data) && "duration" in data.fields && !data.fields["duration"].Number? ==>
              r == Err(MismatchType("Float", data.fields["duration"]))
    ensures DurationReads(data) && "loop" in data.fields && LoopFromPon(data.fields["loop"]).Err? ==>
              r == Err(LoopFromPon(data.fields["loop"]).error)
    ensures LoopReads(data) && "curve_time" in data.fields && CurveTimeFromPon(data.fields["curve_time"]).Err? ==>
              r == Err(CurveTimeFromPon(data.fields["curve_time"]).error)
    ensures CurveTimeReads(data) && "keys" !in data.fields ==> r == Err(NoSuchField("keys"))
    ensures CurveTimeReads(data) && "keys" in data.fields && !data.fields["keys"].Array? ==>
              r == Err(MismatchType("Array", data.fields["keys"]))
  {
    var propertyPon :- Field(data, "property");
    var property :- ReferenceFromPon(propertyPon);
    var durationSecs :- FieldOr(data, "duration", FloatFromPon, 1.0);
    var loopType :- FieldOr(data, "loop", LoopFromPon, Once);
    var curveTime :- FieldOr(data, "curve_time", CurveTimeFromPon, Absolute);
    var keys :- FieldAs(data, "keys", ArrayFromPon);
    Ok(Header(property, durationSecs, loopType, curveTime, keys))
  }

  /** The construction indexes the first key without a check, reads it, and
      only if it reads translates the whole list. */
  predicate KeyFramedDefined<V>(data: Pon, valueOf: Pon -> Result<V>, single: real -> V) {
    KeyFramedHeader(data).Ok? ==>
      var keys := KeyFramedHeader(data).value.keys;
      && |keys| > 0
      && KeyDefined(keys[0])
      && (KeyFromPon(keys[0], valueOf, single).Ok? ==> KeysDefined(keys, valueOf, single))
  }

  /** A `key_framed` block: a linear keyframe curve over the keys as given,
      starting at offset zero, with the duration converted to milliseconds.
      A first key that does not read is reported as a generic error naming it. */
  function KeyFramed<V>(data: Pon, valueOf: Pon -> Result<V>, single: real -> V): (r: Result<Leaf<V>>)
    requires KeyFramedDefined(data, valueOf, single)
    ensures KeyFramedHeader(data).Err? ==> r == Err(KeyFramedHeader(data).error)
    ensures KeyFramedHeader(data).Ok? && KeyFromPon(KeyFramedHeader(data).value.keys[0], valueOf, single).Err? ==>
              r == Err(Generic(KeyFramedHeader(data).value.keys[0]))
    ensures KeyFramedHeader(data).Ok? && KeyFromPon(KeyFramedHeader(data).value.keys[0], valueOf, single).Ok? ==>
              var keys := KeysFromPon(KeyFramedHeader(data).value.keys, valueOf, single);
              && (r.Ok? <==> keys.Ok?)
              && (r.Err? ==> r.error == keys.error)
    ensures r.Ok? ==>
              var h := KeyFramedHeader(data).value;
              && r.value.property == h.property
              && r.value.timing == Timing(0, SecondsToMs(h.durationSecs), h.loopType, h.curveTime)
              && r.value.curve.LinearKeyFrame?
              && |r.value.curve.keys| == |h.keys|
              && forall i | 0 <= i < |h.keys| ::
                   KeyDefined(h.keys[i]) && KeyFromPon(h.keys[i], valueOf, single) == Ok(r.value.curve.keys[i])
  {
    var h :- KeyFramedHeader(data);
    var first := h.keys[0];
    if KeyFromPon(first, valueOf, single).Ok? then
      var keys :- KeysFromPon(h.keys, valueOf, single);
      Ok(Leaf(LinearKeyFrame(keys), Timing(0, SecondsToMs(h.durationSecs), h.loopType, h.curveTime), h.property))
    else
      Err(Generic(first))
  }

  /** A `key_framed` block that gives only its property and keys gets the
      defaults: one second, play once, absolute curve time, offset zero. */
  lemma KeyFramedDefaults<V>(property: PropRef, items: seq<Pon>, keys: seq<Key<V>>,
                             valueOf: Pon -> Result<V>, single: real -> V)
    requires |items| > 0 && KeysDefined(items, valueOf, single)
    requires KeysFromPon(items, valueOf, single) == Ok(keys)
    ensures KeyFramedDefined(Object(map["property" := Reference(property), "keys" := Array(items)]), valueOf, single)
    ensures KeyFramed(Object(map["property" := Reference(property), "keys" := Array(items)]), valueOf, single)
              == Ok(Leaf(LinearKeyFrame(keys), Timing(0, 1000, Once, Absolute), property))
  {
    var data := Object(map["property" := Reference(property), "keys" := Array(items)]);
    assert Field(data, "property") == Ok(Reference(property));
    assert Field(data, "keys") == Ok(Array(items));
    assert Field(data, "duration") == Err(NoSuchField("duration"));
    assert Field(data, "loop") == Err(NoSuchField("loop"));
    assert Field(data, "curve_time") == Err(NoSuchField("curve_time"));
    assert KeyFramedHeader(data) == Ok(Header(property, 1.0, Once, Absolute, items));
    assert SecondsToMs(1.0) == 1000;
  }

  /** A `key_framed` block that sets every field, the optional ones included. */
  function ConfiguredBlock(property: PropRef, secs: real, l: Loop, c: CurveTime, items: seq<Pon>): Pon {
    Object(map["property" := Reference(property), "keys" := Array(items),
               "duration" := Number(secs), "loop" := Str(LoopName(l)),
               "curve_time" := Str(CurveTimeName(c))])
  }

  /** The header of such a block holds exactly the fields it sets. */
  lemma ConfiguredHeader(property: PropRef, secs: real, l: Loop, c: CurveTime, items: seq<Pon>)
    ensures KeyFramedHeader(ConfiguredBlock(property, secs, l, c, items)) == Ok(Header(property, secs, l, c, items))
  {
    var data := ConfiguredBlock(property, secs, l, c, items);
    ModeNamesRoundTrip(l, c);
    assert Field(data, "property") == Ok(Reference(property));
    assert FieldOr(data, "duration", FloatFromPon, 1.0) == Ok(secs);
    assert FieldOr(data, "loop", LoopFromPon, Once) == Ok(l);
    assert FieldOr(data, "curve_time", CurveTimeFromPon, Absolute) == Ok(c);
    assert FieldAs(data, "keys", ArrayFromPon) == Ok(items);
  }

  /** A `key_framed` block that sets its duration, loop mode and curve time
      gets exactly those, the duration converted to milliseconds. */
  lemma KeyFramedConfigured<V>(property: PropRef, secs: real, l: Loop, c: CurveTime,
                               items: seq<Pon>, keys: seq<Key<V>>,
                               valueOf: Pon -> Result<V>, single: real -> V)
    requires |items| > 0 && KeysDefined(items, valueOf, single)
    requires KeysFromPon(items, valueOf, single) == Ok(keys)
    ensures KeyFramedDefined(ConfiguredBlock(property, secs, l, c, items), valueOf, single)
    ensures KeyFramed(ConfiguredBlock(property, secs, l, c, items), valueOf, single)
              == Ok(Leaf(LinearKeyFrame(keys), Timing(0, SecondsToMs(secs), l, c), property))
  {
    ConfiguredHeader(property, secs, l, c, items);
  }

  /** Whether a configuration block can be translated without indexing past
      the end of a list. */
  predicate LeafFromPonDefined<V>(p: Pon, valueOf: Pon -> Result<V>, single: real -> V) {
    p.TypedPon? && p.typeName == "key_framed" ==> KeyFramedDefined(p.data, valueOf, single)
  }

  /** A leaf track from a typed block: `key_framed` builds a keyframe track,
      `fixed_value` a fixed-value track from its `property` and `value`, and
      any other tag is unrecognized. */
  function LeafFromPon<V>(p: Pon, valueOf: Pon -> Result<V>, single: real -> V): (r: Result<Leaf<V>>)
    requires LeafFromPonDefined(p, valueOf, single)
    ensures !p.TypedPon? ==> r == Err(MismatchType("TypedPon", p))
    ensures p.TypedPon? && p.typeName != "key_framed" && p.typeName != "fixed_value" ==>
              r == Err(UnrecognizedType(p.typeName))
    ensures p.TypedPon? && p.typeName == "key_framed" ==> r == KeyFramed(p.data, valueOf, single)
    ensures p.TypedPon? && p.typeName == "fixed_value" && r.Ok? ==>
              && FieldAs(p.data, "property", ReferenceFromPon) == Ok(r.value.property)
              && r.value.curve.FixedValue?
              && FieldAs(p.data, "value", valueOf) == Ok(r.value.curve.value)
              && r.value == NewFixedValue(r.value.property, r.value.curve.value)
    ensures p.TypedPon? && p.typeName == "fixed_value" ==>
              (r.Ok? <==> FieldAs(p.data, "property", ReferenceFromPon).Ok? && FieldAs(p.data, "value", valueOf).Ok?)
    ensures p.TypedPon? && p.typeName == "fixed_value" && r.Err? ==>
              r.error == (if FieldAs(p.data, "property", ReferenceFromPon).Err?
                          then FieldAs(p.data, "property", ReferenceFromPon).error
                          else FieldAs(p.data, "value", valueOf).error)
  {
    var (tag, data) :- TypedFromPon(p);
    if tag == "key_framed" then
      KeyFramed(data, valueOf, single)
    else if tag == "fixed_value" then
      var propertyPon :- Field(data, "property");
      var property :- ReferenceFromPon(propertyPon);
      var value :- FieldAs(data, "value", valueOf);
      Ok(NewFixedValue(property, value))
    else
      Err(UnrecognizedType(tag))
  }

  /** A `fixed_value` block built from a property and an encoded value
      translates to the fixed-value track of that property and value; further
      fields are ignored. */
  lemma FixedValueRoundTrip<V>(property: PropRef, enc: Pon, value: V, fields: map<string, Pon>,
                               valueOf: Pon -> Result<V>, single: real -> V)
    requires valueOf(enc) == Ok(value)
    ensures LeafFromPonDefined(TypedPon("fixed_value", Object(fields["property" := Reference(property)]["value" := enc])), valueOf, single)
    ensures LeafFromPon(TypedPon("fixed_value", Object(fields["property" := Reference(property)]["value" := enc])), valueOf, single)
              == Ok(NewFixedValue(property, value))
  {
    var data := Object(fields["property" := Reference(property)]["value" := enc]);
    assert Field(data, "property") == Ok(Reference(property));
    assert Field(data, "value") == Ok(enc);
  }

  /** How the first key of the crate's `test_animation_from_pon` tests is
      spelled: as an object, or as `[0.0, 0.0]`, which the parser may hand over
      either as a general array or as a float array. */
  datatype KeyForm = ObjectKey | ArrayKey | FloatArrayKey

  /** The key list of those tests: the key (0, 0) in the given form, then the
      key (1, 1) as an object. */
  function UnitTestKeys(firstForm: KeyForm): seq<Pon> {
    var first := match firstForm
      case ObjectKey => Object(map["time" := Number(0.0), "value" := Number(0.0)])
      case ArrayKey => Array([Number(0.0), Number(0.0)])
      case FloatArrayKey => FloatArray([0.0, 0.0]);
    [first, Object(map["time" := Number(1.0), "value" := Number(1.0)])]
  }

  /** The configuration of those tests: a looping keyframe block on `this.x`
      that leaves the duration and curve time at their defaults. */
  function UnitTestConfig(firstForm: KeyForm): Pon {
    TypedPon("key_framed", Object(map[
      "property" := Reference(PropRef("this", "x")),
      "keys" := Array(UnitTestKeys(firstForm)),
      "loop" := Str("forever")]))
  }

  /** Every spelling of the test configuration builds the two-key track,
      looping, with the one-second default duration, provided the value reader
      reads the numbers 0 and 1 (or the float-array form wraps 0) as `v0` and
      `v1`. */
  lemma UnitTestConfigBuilds<V>(firstForm: KeyForm, valueOf: Pon -> Result<V>, single: real -> V, v0: V, v1: V)
    requires firstForm == FloatArrayKey ==> single(0.0) == v0
    requires firstForm != FloatArrayKey ==> valueOf(Number(0.0)) == Ok(v0)
    requires valueOf(Number(1.0)) == Ok(v1)
    ensures LeafFromPonDefined(UnitTestConfig(firstForm), valueOf, single)
    ensures LeafFromPon(UnitTestConfig(firstForm), valueOf, single)
              == Ok(Leaf(LinearKeyFrame([Key(0.0, v0), Key(1.0, v1)]),
                         Timing(0, 1000, Forever, Absolute), PropRef("this", "x")))
  {
    var keys := UnitTestKeys(firstForm);
    var data := UnitTestConfig(firstForm).data;
    assert map[]["time" := Number(0.0)]["value" := Number(0.0)] == map["time" := Number(0.0), "value" := Number(0.0)];
    assert map[]["time" := Number(1.0)]["value" := Number(1.0)] == map["time" := Number(1.0), "value" := Number(1.0)];
    if firstForm != FloatArrayKey {
      KeyFormsRoundTrip(0.0, Number(0.0), v0, map[], valueOf, single);
    }
    KeyFormsRoundTrip(1.0, Number(1.0), v1, map[], valueOf, single);
    assert KeyFromPon(keys[0], valueOf, single) == Ok(Key(0.0, v0));
    assert KeyFromPon(keys[1], valueOf, single) == Ok(Key(1.0, v1));
    assert keys[1..][1..] == [];
    assert keys[1..][0] == keys[1];
    assert KeysFromPon([], valueOf, single) == Ok([]);
    assert [Key(1.0, v1)] + [] == [Key(1.0, v1)];
    assert [Key(0.0, v0)] + [Key(1.0, v1)] == [Key(0.0, v0), Key(1.0, v1)];
    assert KeysFromPon(keys[1..], valueOf, single) == Ok([Key(1.0, v1)]);
    assert KeysFromPon(keys, valueOf, single) == Ok([Key(0.0, v0), Key(1.0, v1)]);
    assert Field(data, "property") == Ok(Reference(PropRef("this", "x")));
    assert Field(data, "keys") == Ok(Array(keys));
    assert Field(data, "duration") == Err(NoSuchField("duration"));
    assert Field(data, "curve_time") == Err(NoSuchField("curve_time"));
    assert Field(data, "loop") == Ok(Str("forever"));
    assert KeyFramedHeader(data) == Ok(Header(PropRef("this", "x"), 1.0, Forever, Absolute, keys));
    assert SecondsToMs(1.0) == 1000;
  }
}

=== FILE: leaf_track.dfy ===
/** A leaf track: a curve, its playback timing and the property it drives.
    Evaluating it at an elapsed time yields zero or one (property, value)
    pair. The value type V is a plain float for `Animation` and a vector of
    channels for `CurveTrack`; both share this one definition. */
module LeafTracks {
  import opened PonModel
  import opened TimeMapping

  /** A keyframe: time and value. */
  datatype Key<V> = Key(time: real, value: V)

  /** The two curve shapes the constructors build. How a curve turns a
      parameter into a value is not part of this model: evaluation always goes
      through a `sample` function supplied by the caller. */
  datatype Curve<V> = FixedValue(value: V) | LinearKeyFrame(keys: seq<Key<V>>)

  datatype Leaf<V> = Leaf(curve: Curve<V>, timing: Timing, property: PropRef)

  /** The sequence of (property, value) pairs a track emits at one instant. */
  type Emitted<V> = seq<(PropRef, V)>

  /** A track that holds `value` on `property`: it starts immediately, lasts a
      week, loops forever and uses absolute curve time. */
  function NewFixedValue<V>(property: PropRef, value: V): (l: Leaf<V>)
    ensures l.curve == FixedValue(value) && l.property == property
    ensures l.timing.offsetMs == 0 && l.timing.loopType == Forever
    ensures l.timing.durationMs == WeekMs && l.timing.curveTime == Absolute
  {
    Leaf(FixedValue(value), Timing(0, WeekMs, Forever, Absolute), property)
  }

  /** Evaluate a leaf track: nothing once a play-once track is past its
      duration, otherwise its property with the curve sampled at the mapped
      time. */
  function ValueAt<V>(l: Leaf<V>, timeMs: int, sample: (Curve<V>, real) -> V): (r: Emitted<V>)
    requires MapDefined(l.timing, timeMs)
    ensures |r| <= 1
    ensures r == [] <==> Finished(l.timing, timeMs)
    ensures forall i | 0 <= i < |r| :: r[i].0 == l.property
  {
    match MapTime(l.timing, timeMs)
    case None => []
    case Some(p) => [(l.property, sample(l.curve, p))]
  }

  /** Local time up to and including the duration, negative local time
      included, is used unchanged: exactly one pair, the curve sampled at the
      unwrapped local time. */
  lemma WithinDurationUnwrapped<V>(l: Leaf<V>, timeMs: int, sample: (Curve<V>, real) -> V)
    requires Local(l.timing, timeMs) <= l.timing.durationMs
    requires ParameterDefined(l.timing)
    ensures ValueAt(l, timeMs, sample)
              == [(l.property, sample(l.curve, Parameter(l.timing, Local(l.timing, timeMs))))]
  {
  }

  /** A looping track never goes silent: at every instant it emits exactly one
      pair, for its own property. */
  lemma ForeverAlwaysEmits<V>(l: Leaf<V>, timeMs: int, sample: (Curve<V>, real) -> V)
    requires l.timing.loopType == Forever && l.timing.durationMs != 0
    ensures MapDefined(l.timing, timeMs)
    ensures |ValueAt(l, timeMs, sample)| == 1
    ensures ValueAt(l, timeMs, sample)[0].0 == l.property
  {
  }

  /** Past its duration a looping track with a positive duration samples the
      curve at the local time modulo the duration, which lies in [0, duration). */
  lemma ForeverWraps<V>(l: Leaf<V>, timeMs: int, sample: (Curve<V>, real) -> V)
    requires l.timing.loopType == Forever && 0 < l.timing.durationMs < Local(l.timing, timeMs)
    ensures 0 <= Local(l.timing, timeMs) % l.timing.durationMs < l.timing.durationMs
    ensures ValueAt(l, timeMs, sample)
              == [(l.property, sample(l.curve, Parameter(l.timing, Local(l.timing, timeMs) % l.timing.durationMs)))]
  {
  }

  /** Once a looping track has started, shifting the time by whole periods
      does not change what it emits, except at exact multiples of the
      duration (see `TimeMapping.ForeverBoundary`). */
  lemma ForeverRepeats<V>(l: Leaf<V>, timeMs: int, k: nat, sample: (Curve<V>, real) -> V)
    requires l.timing.loopType == Forever && l.timing.durationMs > 0
    requires Local(l.timing, timeMs) > 0 && Local(l.timing, timeMs) % l.timing.durationMs != 0
    ensures ValueAt(l, timeMs + k * l.timing.durationMs, sample) == ValueAt(l, timeMs, sample)
  {
    ForeverPeriodic(l.timing, timeMs, k);
  }

  /** A fixed-value track emits exactly one pair at every instant, and when the
      curve holds its fixed value regardless of the parameter, that value. */
  lemma FixedValueAlwaysEmits<V>(property: PropRef, value: V, timeMs: int, sample: (Curve<V>, real) -> V)
    ensures MapDefined(NewFixedValue(property, value).timing, timeMs)
    ensures |ValueAt(NewFixedValue(property, value), timeMs, sample)| == 1
    ensures ValueAt(NewFixedValue(property, value), timeMs, sample)[0].0 == property
    ensures (forall p :: sample(FixedValue(value), p) == value) ==>
              ValueAt(NewFixedValue(property, value), timeMs, sample) == [(property, value)]
  {
  }
}

=== FILE: pon.dfy ===
/** A minimal model of the configuration values ("Pon") that the scene format's
    parser hands to the animation constructors, and of the few translation
    primitives the constructors use on them. The parser and the full value
    language belong to a foreign library; only the shapes the animation
    constructors inspect are modelled here. */
module PonModel {

  /** Opaque address of an entity property: an entity path and a property name.
      The animation code only copies and compares it. */
  datatype PropRef = PropRef(entity: string, name: string)

  /** A configuration value. `Number` stands for every numeric literal, which
      the constructors read as a 32-bit float (modelled as a real). */
  datatype Pon =
    | Nil
    | Number(x: real)
    | Str(s: string)
    | Reference(prop: PropRef)
    | TypedPon(typeName: string, data: Pon)
    | Object(fields: map<string, Pon>)
    | Array(items: seq<Pon>)
    | FloatArray(floats: seq<real>)

  /** Structured translation errors; the offending value is carried as a value
      rather than as its debug text. */
  datatype TranslateErr =
    | NoSuchField(field: string)
    | MismatchType(expected: string, found: Pon)
    | InvalidValue(value: Pon)
    | UnrecognizedType(typeName: string)
    | Generic(subject: Pon)

  /** Outcome of a translation; usable with `:-`. */
  datatype Result<+T> = Ok(value: T) | Err(error: TranslateErr) {
    predicate IsFailure() {
      Err?
    }

    function PropagateFailure<U>(): Result<U>
      requires Err?
    {
      Err(error)
    }

    function Extract(): T
      requires Ok?
    {
      value
    }
  }

  /** A numeric value read as a float. */
  function FloatFromPon(p: Pon): Result<real> {
    if p.Number? then Ok(p.x) else Err(MismatchType("Float", p))
  }

  /** A string value. */
  function StringFromPon(p: Pon): Result<string> {
    if p.Str? then Ok(p.s) else Err(MismatchType("String", p))
  }

  /** A property reference (`as_reference`). */
  function ReferenceFromPon(p: Pon): Result<PropRef> {
    if p.Reference? then Ok(p.prop) else Err(MismatchType("Reference", p))
  }

  /** A list of configuration values, as a borrowed vector of Pon. */
  function ArrayFromPon(p: Pon): Result<seq<Pon>> {
    if p.Array? then Ok(p.items) else Err(MismatchType("Array", p))
  }

  /** A typed block `type_name { data }`, split into its tag and its data. */
  function TypedFromPon(p: Pon): Result<(string, Pon)> {
    if p.TypedPon? then Ok((p.typeName, p.data)) else Err(MismatchType("TypedPon", p))
  }

  /** The raw value of a field of an object. */
  function Field(p: Pon, name: string): Result<Pon> {
    match p
    case Object(fields) =>
      if name in fields then Ok(fields[name]) else Err(NoSuchField(name))
    case _ => Err(MismatchType("Object", p))
  }

  /** A field of an object, translated (`field_as`). */
  function FieldAs<T>(p: Pon, name: string, translate: Pon -> Result<T>): Result<T> {
    var v :- Field(p, name);
    translate(v)
  }

  /** A field of an object, translated, or `default` when the object lacks the
      field (`field_as_or`). Any other failure is propagated. */
  function FieldOr<T>(p: Pon, name: string, translate: Pon -> Result<T>, default: T): Result<T> {
    match Field(p, name)
    case Ok(v) => translate(v)
    case Err(NoSuchField(_)) => Ok(default)
    case Err(e) => Err(e)
  }
}

=== FILE: time_mapping.dfy ===
/** The time mapper shared by every leaf track: it turns an elapsed playback
    time into the parameter at which the track's curve is sampled, or into
    "nothing" once a play-once track has finished. All times are whole
    milliseconds; the curve parameter, a 32-bit float in the Rust crate, is
    a real here. */
module TimeMapping {

  datatype Option<+T> = None | Some(value: T)

  /** What a track does once its local time passes its duration. */
  datatype Loop = Forever | Once

  /** How local time is scaled into the curve parameter. */
  datatype CurveTime =
    | Relative  // the curve's keys lie between 0 and 1
    | Absolute  // the curve's keys are in seconds, between 0 and the duration

  /** One week in milliseconds: the duration given to fixed-value tracks. */
  const WeekMs: int := 7 * 24 * 60 * 60 * 1000

  /** The playback configuration of a leaf track. */
  datatype Timing = Timing(offsetMs: int, durationMs: int, loopType: Loop, curveTime: CurveTime)

  function Abs(n: int): int {
    if n < 0 then -n else n
  }

  /** Time measured from the start of the track; negative before it starts. */
  function Local(t: Timing, timeMs: int): int {
    timeMs - t.offsetMs
  }

  /** A play-once track whose local time is strictly past its duration. */
  predicate Finished(t: Timing, timeMs: int) {
    t.loopType == Once && Local(t, timeMs) > t.durationMs
  }

  /** The remainder of the source language's 64-bit `%`: division truncates
      toward zero, so the remainder takes the sign of the dividend. */
  function TruncRem(a: int, b: int): (r: int)
    requires b != 0
    ensures a >= 0 ==> 0 <= r < Abs(b)
    ensures a < 0 ==> -Abs(b) < r <= 0
    ensures a >= 0 && b > 0 ==> r == a % b
    ensures (a - r) % b == 0
  {
    if a >= 0 then
      var r := a % b;
      assert (a - r) % b == 0 by {
        ModUniqueAny(a - r, b, a / b, 0);
      }
      r
    else
      var r := -((-a) % b);
      assert (a - r) % b == 0 by {
        assert a - r == b * -((-a) / b);
        ModUniqueAny(a - r, b, -((-a) / b), 0);
      }
      r
  }

  /** Conversion of a float to an integer with `as`: truncation toward zero
      (saturation at the 64-bit bounds is not modelled). */
  function TruncateToInt(x: real): (n: int)
    ensures x >= 0.0 ==> n as real <= x < n as real + 1.0
    ensures x < 0.0 ==> n as real - 1.0 < x <= n as real
  {
    if x >= 0.0 then x.Floor else -((-x).Floor)
  }

  /** A duration given in seconds, converted to whole milliseconds. */
  function SecondsToMs(secs: real): int {
    TruncateToInt(secs * 1000.0)
  }

  /** Wrapping divides by the duration; it must not be zero when reached. */
  predicate WrapDefined(t: Timing, timeMs: int) {
    t.loopType == Forever && Local(t, timeMs) > t.durationMs ==> t.durationMs != 0
  }

  /** Local time after looping: None once a play-once track has finished,
      otherwise the local time, wrapped only when strictly past the duration. */
  function Wrapped(t: Timing, timeMs: int): (r: Option<int>)
    requires WrapDefined(t, timeMs)
    ensures r.None? <==> Finished(t, timeMs)
    ensures Local(t, timeMs) <= t.durationMs ==> r == Some(Local(t, timeMs))
    ensures t.loopType == Forever && 0 < t.durationMs < Local(t, timeMs) ==>
              r == Some(Local(t, timeMs) % t.durationMs) && 0 <= r.value < t.durationMs
  {
    var local := Local(t, timeMs);
    if local > t.durationMs then
      if t.loopType == Forever then Some(TruncRem(local, t.durationMs)) else None
    else
      Some(local)
  }

  /** Relative scaling divides by the duration. */
  predicate ParameterDefined(t: Timing) {
    t.curveTime == Relative ==> t.durationMs != 0
  }

  /** The curve parameter for a (wrapped) local time: seconds for absolute
      curves, the fraction of the duration for relative ones. */
  function Parameter(t: Timing, ms: int): (p: real)
    requires ParameterDefined(t)
    ensures t.curveTime == Absolute ==> p * 1000.0 == ms as real
    ensures t.curveTime == Relative ==> p * t.durationMs as real == ms as real
    ensures t.curveTime == Relative && 0 <= ms <= t.durationMs ==> 0.0 <= p <= 1.0
  {
    match t.curveTime
    case Absolute => ms as real / 1000.0
    case Relative =>
      var d := t.durationMs as real;
      var p := ms as real / d;
      assert 0 <= ms <= t.durationMs ==> 0.0 <= p <= 1.0 by {
        if 0 <= ms <= t.durationMs {
          FractionInUnit(ms as real, d);
        }
      }
      p
  }

  /** A fraction whose numerator lies between zero and its positive
      denominator lies in [0, 1]. */
  lemma FractionInUnit(n: real, d: real)
    requires 0.0 <= n <= d && d > 0.0
    ensures 0.0 <= n / d <= 1.0
  {
    var q := n / d;
    assert q * d == n;
    assert (1.0 - q) * d == d - n;
  }

  /** The mapping is defined unless it divides by a zero duration. */
  predicate MapDefined(t: Timing, timeMs: int) {
    WrapDefined(t, timeMs) && (!Finished(t, timeMs) ==> ParameterDefined(t))
  }

  /** The whole time mapper: elapsed time to curve parameter, or None when the
      track has finished. */
  function MapTime(t: Timing, timeMs: int): (r: Option<real>)
    requires MapDefined(t, timeMs)
    ensures r.None? <==> Finished(t, timeMs)
    ensures t.loopType == Forever ==> r.Some?
  {
    match Wrapped(t, timeMs)
    case None => None
    case Some(ms) => Some(Parameter(t, ms))
  }

  lemma MulAtLeast(d: int, k: int)
    requires d > 0 && k >= 1
    ensures d * k >= d
  {
    assert d * k == d * (k - 1) + d;
  }

  /** Euclidean remainders are unique. */
  lemma ModUnique(y: int, d: int, q: int, r: int)
    requires d > 0 && 0 <= r < d && y == d * q + r
    ensures y % d == r
  {
    var q', r' := y / d, y % d;
    assert y == d * q' + r';
    var k := q - q';
    assert d * k == r' - r by {
      assert d * q - d * q' == d * (q - q');
    }
    if k >= 1 {
      MulAtLeast(d, k);
    } else if k <= -1 {
      MulAtLeast(d, -k);
    }
  }

  /** Remainders are unique for a divisor of either sign: Dafny's `%` always
      lies in [0, |d|). */
  lemma ModUniqueAny(y: int, d: int, q: int, r: int)
    requires d != 0 && 0 <= r < Abs(d) && y == d * q + r
    ensures y % d == r
  {
    if d > 0 {
      ModUnique(y, d, q, r);
    } else {
      var q', r' := y / d, y % d;
      assert y == d * q' + r';
      var k := q' - q;
      assert (-d) * k == r' - r by {
        assert (-d) * (q' - q) == d * q - d * q';
      }
      if k >= 1 {
        MulAtLeast(-d, k);
      } else if k <= -1 {
        MulAtLeast(-d, -k);
      }
    }
  }

  /** Shifting by whole periods does not change a remainder. */
  lemma ModShift(x: int, d: int, k: int)
    requires d > 0
    ensures (x + k * d) % d == x % d
  {
    assert x + k * d == d * (x / d + k) + x % d by {
      assert d * (x / d + k) == d * (x / d) + d * k;
    }
    ModUnique(x + k * d, d, x / d + k, x % d);
  }

  /** A looping track repeats with period `duration`: any local time that is
      positive and not a multiple of the duration maps to the same parameter
      after any number of further periods. */
  lemma ForeverPeriodic(t: Timing, timeMs: int, k: nat)
    requires t.loopType == Forever && t.durationMs > 0
    requires Local(t, timeMs) > 0 && Local(t, timeMs) % t.durationMs != 0
    ensures MapTime(t, timeMs + k * t.durationMs) == MapTime(t, timeMs)
  {
    var d := t.durationMs;
    var local := Local(t, timeMs);
    if k > 0 {
      var shift := k * d;
      MulAtLeast(d, k);
      ModShift(local, d, k);
      assert Local(t, timeMs + shift) == local + shift > d;
      assert Wrapped(t, timeMs + shift) == Some((local + shift) % d);
      if local < d {
        assert Wrapped(t, timeMs) == Some(local);
        assert local % d == local by {
          ModUnique(local, d, 0, local);
        }
      } else {
        assert local != d by {
          ModUnique(d, d, 1, 0);
        }
        assert Wrapped(t, timeMs) == Some(local % d);
      }
    }
  }

  /** The comparison with the duration is strict, so a looping track is NOT
      periodic at the period boundary: local time equal to the duration is
      passed through unwrapped, while twice the duration wraps to zero. */
  lemma ForeverBoundary(t: Timing)
    requires t.loopType == Forever && t.durationMs > 0
    ensures Wrapped(t, t.offsetMs + t.durationMs) == Some(t.durationMs)
    ensures Wrapped(t, t.offsetMs + 2 * t.durationMs) == Some(0)
    ensures t.curveTime == Relative ==>
              MapTime(t, t.offsetMs + t.durationMs) == Some(1.0) &&
              MapTime(t, t.offsetMs + 2 * t.durationMs) == Some(0.0)
  {
    var d := t.durationMs;
    assert Local(t, t.offsetMs + d) == d;
    assert Local(t, t.offsetMs + 2 * d) == 2 * d > d;
    assert (2 * d) % d == 0 by {
      ModUnique(2 * d, d, 2, 0);
    }
    assert Wrapped(t, t.offsetMs + 2 * d) == Some(0);
    if t.curveTime == Relative {
      assert Parameter(t, d) == 1.0;
      assert Parameter(t, 0) == 0.0;
    }
  }

  /** A looping track with a positive duration, once started, always samples
      its curve within [0, duration]; relatively, within [0, 1]. */
  lemma ForeverStaysInRange(t: Timing, timeMs: int)
    requires t.loopType == Forever && t.durationMs > 0
    requires Local(t, timeMs) >= 0
    ensures Wrapped(t, timeMs).Some?
    ensures 0 <= Wrapped(t, timeMs).value <= t.durationMs
    ensures t.curveTime == Relative ==> 0.0 <= MapTime(t, timeMs).value <= 1.0
  {
  }

  /** Local time before the start is not clamped: it reaches the curve as a
      negative parameter. */
  lemma NegativeNotClamped(t: Timing, timeMs: int)
    requires Local(t, timeMs) < 0 && Local(t, timeMs) <= t.durationMs
    requires ParameterDefined(t)
    requires t.curveTime == Absolute || t.durationMs > 0
    ensures MapTime(t, timeMs) == Some(Parameter(t, Local(t, timeMs)))
    ensures MapTime(t, timeMs).value < 0.0
  {
  }
}

=== FILE: track.dfy ===
/** The track abstraction: every kind of track, evaluated at an elapsed time,
    yields an ordered sequence of (property, value) pairs. Curve tracks are
    modelled in full; track sets and weighted track blends are kept abstract
    (the type parameters S and W), with their evaluation and construction
    supplied by the caller. */
module Tracks {
  import opened PonModel
  import opened TimeMapping
  import opened LeafTracks
  import opened CurveTracks

  type Output = Emitted<Animatable>

  /** A track that reuses a track set registered as a shared resource. */
  datatype TrackSetFromResource<S> = TrackSetFromResource(resource: S)

  /** The closed set of track kinds. */
  datatype Track<S, W> =
    | CurveTrackOf(curveTrack: CurveTrack)
    | TrackSetOf(trackSet: S)
    | WeightedTracksOf(weighted: W)
    | FromResource(shared: TrackSetFromResource<S>)

  /** Evaluation of what this model keeps abstract: curve sampling, track sets
      and weighted blends. */
  datatype Evaluators<-S, -W> = Evaluators(
    sample: (Curve<Animatable>, real) -> Animatable,
    trackSetValueAt: (S, int) -> Output,
    weightedValueAt: (W, int) -> Output)

  /** A shared track set evaluated through its wrapper gives exactly what the
      set gives, at the same time. */
  function ResourceValueAt<S>(r: TrackSetFromResource<S>, timeMs: int, trackSetValueAt: (S, int) -> Output)
    : (out: Output)
    ensures out == trackSetValueAt(r.resource, timeMs)
  {
    trackSetValueAt(r.resource, timeMs)
  }

  predicate ValueAtDefined<S, W>(t: Track<S, W>, timeMs: int) {
    t.CurveTrackOf? ==> MapDefined(t.curveTrack.timing, timeMs)
  }

  /** A track evaluated at an elapsed time, dispatched on its kind. */
  function ValueAt<S, W>(t: Track<S, W>, timeMs: int, ev: Evaluators<S, W>): (out: Output)
    requires ValueAtDefined(t, timeMs)
    ensures t.CurveTrackOf? ==> |out| <= 1 && (out == [] <==> Finished(t.curveTrack.timing, timeMs))
    ensures t.CurveTrackOf? ==> out == CurveTracks.ValueAt(t.curveTrack, timeMs, ev.sample)
    ensures t.TrackSetOf? ==> out == ev.trackSetValueAt(t.trackSet, timeMs)
    ensures t.WeightedTracksOf? ==> out == ev.weightedValueAt(t.weighted, timeMs)
    ensures t.FromResource? ==> out == ev.trackSetValueAt(t.shared.resource, timeMs)
  {
    match t
    case CurveTrackOf(c) => CurveTracks.ValueAt(c, timeMs, ev.sample)
    case TrackSetOf(s) => ev.trackSetValueAt(s, timeMs)
    case WeightedTracksOf(w) => ev.weightedValueAt(w, timeMs)
    case FromResource(r) => ResourceValueAt(r, timeMs, ev.trackSetValueAt)
  }

  /** What construction needs from outside this model: reading an
      `Animatable`, the track-set and weighted-tracks constructors, and the
      registry of shared track sets by identifier. */
  datatype Context<S, W> = Context(
    animatableOf: AnimatableReader,
    trackSetFromPon: Pon -> Result<S>,
    weightedFromPon: Pon -> Result<W>,
    resources: map<string, S>)

  /** The type tags a track block may carry. */
  const TrackTags: set<string> :=
    {"key_framed", "fixed_value", "track_set", "weighted_tracks", "track_set_from_resource"}

  /** Construction must not meet an unreadable keyframe list, nor a resource
      identifier the registry lacks: both abort (an index out of bounds, an `unwrap`). */
  predicate FromPonDefined<S, W>(p: Pon, ctx: Context<S, W>) {
    && (p.TypedPon? && (p.typeName == "key_framed" || p.typeName == "fixed_value") ==>
          CurveTracks.FromPonDefined(p, ctx.animatableOf))
    && (p.TypedPon? && p.typeName == "track_set_from_resource" && p.data.Str? ==>
          p.data.s in ctx.resources)
  }

  /** A track from a typed block, dispatched on its tag. */
  function FromPon<S, W>(p: Pon, ctx: Context<S, W>): (r: Result<Track<S, W>>)
    requires FromPonDefined(p, ctx)
    ensures !p.TypedPon? ==> r == Err(MismatchType("TypedPon", p))
    ensures p.TypedPon? && p.typeName !in TrackTags ==> r == Err(UnrecognizedType(p.typeName))
    ensures r.Ok? ==> p.TypedPon? && p.typeName in TrackTags
    ensures r.Ok? && r.value.CurveTrackOf? <==>
              p.TypedPon? && (p.typeName == "key_framed" || p.typeName == "fixed_value") &&
              CurveTracks.CurveTrackFromPon(p, ctx.animatableOf).Ok?
  {
    var (tag, data) :- TypedFromPon(p);
    if tag == "key_framed" || tag == "fixed_value" then
      var c :- CurveTrackFromPon(p, ctx.animatableOf);
      Ok(CurveTrackOf(c))
    else if tag == "track_set" then
      var s :- ctx.trackSetFromPon(p);
      Ok(TrackSetOf(s))
    else if tag == "weighted_tracks" then
      var w :- ctx.weightedFromPon(p);
      Ok(WeightedTracksOf(w))
    else if tag == "track_set_from_resource" then
      var id :- StringFromPon(data);
      Ok(FromResource(TrackSetFromResource(ctx.resources[id])))
    else
      Err(UnrecognizedType(tag))
  }

  /** `key_framed` and `fixed_value` blocks become curve tracks, built by the
      curve-track constructor from the whole block; its errors pass through. */
  lemma CurveTagsBuildCurveTracks<S, W>(p: Pon, ctx: Context<S, W>)
    requires p.TypedPon? && (p.typeName == "key_framed" || p.typeName == "fixed_value")
    requires FromPonDefined(p, ctx)
    ensures FromPon(p, ctx) == (match CurveTrackFromPon(p, ctx.animatableOf)
                                case Ok(c) => Ok(CurveTrackOf(c))
                                case Err(e) => Err(e))
  {
  }

  /** `track_set` and `weighted_tracks` blocks go to their own constructors,
      given the whole block; their errors pass through. */
  lemma CompositeTagsDispatch<S, W>(data: Pon, ctx: Context<S, W>)
    ensures FromPon(TypedPon("track_set", data), ctx)
              == (match ctx.trackSetFromPon(TypedPon("track_set", data))
                  case Ok(s) => Ok(TrackSetOf(s))
                  case Err(e) => Err(e))
    ensures FromPon(TypedPon("weighted_tracks", data), ctx)
              == (match ctx.weightedFromPon(TypedPon("weighted_tracks", data))
                  case Ok(w) => Ok(WeightedTracksOf(w))
                  case Err(e) => Err(e))
  {
  }

  /** A `track_set_from_resource` block names a registered track set; the
      track built from it evaluates, at every time, exactly as that set. */
  lemma ResourceTrackDelegates<S, W>(id: string, ctx: Context<S, W>, ev: Evaluators<S, W>, timeMs: int)
    requires id in ctx.resources
    ensures FromPon(TypedPon("track_set_from_resource", Str(id)), ctx)
              == Ok(FromResource(TrackSetFromResource(ctx.resources[id])))
    ensures ValueAt(FromPon(TypedPon("track_set_from_resource", Str(id)), ctx).value, timeMs, ev)
              == ev.trackSetValueAt(ctx.resources[id], timeMs)
  {
  }

  /** A `track_set_from_resource` block whose data is not a string is a type
      mismatch. */
  lemma ResourceIdMustBeString<S, W>(data: Pon, ctx: Context<S, W>)
    requires !data.Str?
    ensures FromPon(TypedPon("track_set_from_resource", data), ctx) == Err(MismatchType("String", data))
  {
  }
}
